=== FILE: README.md ===
# Paths: room, drawing and input core

A Dafny model of the game logic in `code/win32_paths.cpp`, the early
Windows version of the "paths" tile game. The model covers these parts:

- **Game state.** The tile, room, offscreen-buffer and game-state records (`Game`).
  `GetTile` is the row-major address `x + y * width` of a cell.
- **Buffer sizing.** Each tile is 5 pixels wide plus a 1-pixel gridline. A pixel is 4 bytes.
  Each row is padded with `(w * 4 + 15) & ~15`, modelled as a two's-complement AND
  (`Arith.And`). The bitmap header's width is the pitch divided by 4 (`Buffers`).
- **Drawing.** `RedrawRoom` is the nested loop of the source, with its
  `SubX`/`TileX`/`SubY`/`TileY` counters and its `PixelRow` pointer stepping
  one pitch per row (the memory is modelled as 32-bit words, so one pitch is
  `pitch / 4` words). It is proved to write exactly `Render`, a pure
  definition by division: pixel `(px, py)` is black on a gridline
  (`px % 6 == 0` or `py % 6 == 0`). In the player's cell it is one of two greys,
  chosen by coordinate parity. Otherwise it is white for a free tile and near-black for
  a blocked one. The padding words of each row keep whatever they held (`Drawing`).
- **Room reset.** `ResetRoom` builds the fixed 9 by 7 grid, puts the player at `(4, 0)`,
  sizes the buffer and redraws. The free tiles are the column `x = 4` in rows 1 to 6.
  Each of them links to the cell one row down as "previous" and one row up as
  "next". The nested tile loop `ResetTiles` is proved equal to the cell-by-cell
  definition `BaseTiles` (`Rooms`). `Startup` is the state after `WinMain`'s initialisation.
- **Moves.** Each of the four player moves shifts one coordinate by one and
  redraws (`Moves`). Up increases `y`: the bitmap is bottom-up, because its
  header height is positive.
- **Window callback.** The callback's effect on the state (`Keys`):
  - close and destroy clear the run flag;
  - on a fresh key-down (bit 31 clear, bit 30 clear), W/A/S/D and the arrow keys move the player;
  - Alt+F4 clears the run flag.

  The message parameters are modelled as 64-bit words (`bv64`). In the source,
  `1 << 31` is the 32-bit `INT_MIN`, so the "is down" test is sign-extended to
  bits 31 to 63.

The tile memory and the pixel memory are fixed regions of an arena. A reset
rewrites only some fields, so the model threads the old contents through:
- a blocked tile keeps its old link fields (`Rooms.BlockedLinksKept`);
- a row's padding keeps its old words (`Drawing.PaddingKept`).

Facts about the code that the model makes explicit:
- The row pitch of the 9 by 7 room is `(55 * 4 + 15) & ~15 = 224` bytes (56 words per row)
  (`Buffers.RoomBufferGeometry`).
- The path's links end at plain cells:
  - the lowest free tile's "previous" is the blocked spawn cell `(4, 0)`;
  - the highest free tile's "next" is `(4, 7)`, outside the grid (`Rooms.PathEnds`).
- The player's spawn cell is blocked: the reset frees `x == 4 && y != 0`
  (`Rooms.FreeTilesAfterReset`).
- Moves are unchecked. They ignore tiles and grid bounds, and a player outside the grid
  is simply not drawn (`Drawing.PlayerOffGridInvisible`).
- The code has no random carving, no free-tile check on moving and no
  room-cleared handling. `Seed` and `RoomsCleared` are only initialised.

## Model

| member | source | states |
|---|---|---|
| Game.GetTile | code/win32_paths.cpp:65-70 | inside the grid the tile address is a valid index below `width * height`, and for any in-range column it gives back the column as remainder and the row as quotient by the width |
| Game.TileCoordinates | code/win32_paths.cpp:65-70 | every flat index of the grid is the address of the in-grid cell `(i % width, i / width)`, so the addressing is onto the tile array |
| Game.GetTileInjective | code/win32_paths.cpp:65-70 | distinct in-range cells never share a tile address |
| Arith.And | code/win32_paths.cpp:180 | the two's-complement AND of a non-negative value with any mask never exceeds that value |
| Arith.AndClearsLowFour | code/win32_paths.cpp:180 | AND with `~15` (that is `-16`) clears exactly the low four bits: the result is `a - a % 16`, a multiple of 16 less than 16 below `a` |
| Buffers.PadPitch | code/win32_paths.cpp:180 | the padded row length is a multiple of 16 and at least the row length, by less than 16 bytes |
| Buffers.BufferFor | code/win32_paths.cpp:172-186 | the buffer is six pixels per cell plus one closing gridline in each direction, the header width covers the whole drawn row, the header height equals the buffer height, and the pixel memory is reused as it is |
| Buffers.PaddedRow | code/win32_paths.cpp:180-185 | the pitch is a multiple of 16 bytes, holds the row's 4-byte pixels with less than 16 bytes of padding, and the header width in pixels is exactly the pitch over 4 |
| Buffers.PitchIsLeastMultipleOf16 | code/win32_paths.cpp:180 | no multiple of 16 that still holds the row is smaller than the pitch |
| Buffers.RoomBufferGeometry | code/win32_paths.cpp:134-186 | the 9 by 7 room gets a 55 by 43 pixel buffer with 224-byte rows, a 56 by 43 bitmap header and 43 * 56 words of pixel memory |
| Drawing.PixelColour | code/win32_paths.cpp:92-114 | a pixel is black exactly when it lies on a gridline, and it is grey only inside the player's cell |
| Drawing.Render | code/win32_paths.cpp:72-129 | the buffer after a full redraw has the same length as before and keeps every padding word beyond a row's pixels |
| Drawing.RedrawRoom | code/win32_paths.cpp:72-129 | the counter-driven double loop writes, word by word, the rendered colour of every pixel and leaves the padding words unchanged, so its result is the whole rendered buffer |
| Drawing.DrawNextRow | code/win32_paths.cpp:80-128 | drawing row `y` over memory whose earlier rows are drawn extends the drawn prefix by exactly one padded row and leaves the rest untouched |
| Drawing.DrawRow | code/win32_paths.cpp:84-121 | the inner loop writes pixel `x` of row `y` with the colour rule, at word `pixelRow + x`, and writes no other word, not even the row's padding |
| Drawing.CounterStep | code/win32_paths.cpp:116-126 | incrementing the sub-tile counter and wrapping it at the tile offset keeps it equal to the remainder, and the tile counter equal to the quotient, by 6 |
| Drawing.Redraw | code/win32_paths.cpp:72-129 | a redraw leaves the run flag, seed, counter, player, room and the whole buffer geometry (width, height, pitch, header) alone, never writes a padding word, and leaves the buffer holding the rendered picture (`Displayed`): its memory is what a redraw of it would write |
| Drawing.RedrawForgetsOldPixels | code/win32_paths.cpp:72-129 | redrawing after moving the player gives the same memory as one redraw of the moved state: only the untouched padding keeps traces of the old buffer |
| Drawing.SamePictureSameRender | code/win32_paths.cpp:87-121 | the rendered memory depends only on the room, the player cell, the geometry and the padding words |
| Drawing.PixelAddress | code/win32_paths.cpp:77-127 | pixel `(px, py)` is the word at byte `py * pitch + 4 * px`, inside the memory, and a redraw puts its colour there |
| Drawing.PaddingKept | code/win32_paths.cpp:87-127 | a redraw leaves every padding word at the end of a row as it was |
| Drawing.ColourRule | code/win32_paths.cpp:91-114 | a pixel is black exactly on the gridlines; inside the player's cell it is the dark grey when the coordinate parities agree and the light grey otherwise; elsewhere the looked-up tile is inside the grid, the pixel is white exactly when that tile is free and near-black (`0x000F0F0F`) when it is blocked |
| Drawing.PlayerOffGridInvisible | code/win32_paths.cpp:96-105 | a player outside the grid colours no pixel grey |
| Rooms.ResetTile | code/win32_paths.cpp:154-165 | a reset tile is free exactly in the spawn column off the spawn row, a free tile links to the cells directly below and above it, and a blocked tile differs from its old record only in the free flag |
| Rooms.BaseTiles | code/win32_paths.cpp:144-170 | after a reset, flat index `i` is free exactly when `i % 9 == 4` and `i / 9 != 0`, and every blocked tile is its old record with the free flag cleared |
| Rooms.ResetTiles | code/win32_paths.cpp:144-170 | the row loop with its row pointer and inner tile pointer writes exactly the cell-by-cell reset of every tile |
| Rooms.ResetRoom | code/win32_paths.cpp:131-192 | after a reset the room is 9 by 7, the player is at `(4, 0)`, the buffer is the one sized for the room and holds the rendered picture (`Displayed`), every padding word keeps its old value, the run flag, seed and counter are unchanged, and a cell is free exactly when it is in the player's column but not the player's row |
| Rooms.Startup | code/win32_paths.cpp:351-359 | the program starts running with seed 420023, no room cleared and the player at `(4, 0)`; its room is exactly the reset 9 by 7 room over the zero-filled arena (every blocked tile an all-zero record), the buffer holds its rendered picture (`Displayed`) and every padding word is 0 |
| Rooms.FreeTilesAfterReset | code/win32_paths.cpp:144-170 | after a reset exactly the tiles with flat indices 13, 22, 31, 40, 49 and 58 are free: six, one per row above the spawn row, and the spawn cell is not among them |
| Rooms.LinksAfterReset | code/win32_paths.cpp:154-161 | a free tile's previous cell is the one below it and its next cell is the one above it |
| Rooms.LinksAreMutual | code/win32_paths.cpp:154-161 | in rows 2 to 5 a free tile's previous and next cells are free and link back to it |
| Rooms.PathEnds | code/win32_paths.cpp:136-161 | the lowest free tile's previous cell is the blocked spawn cell and the highest free tile's next cell is `(4, 7)`, outside the grid |
| Rooms.BlockedLinksKept | code/win32_paths.cpp:162-165 | a reset only clears the free flag of a blocked tile and keeps its old link fields |
| Rooms.ResetIgnoresPosition | code/win32_paths.cpp:136-137 | the player's position before a reset has no effect on its result |
| Moves.PlayerMoveUp | code/win32_paths.cpp:194-206 | moving up adds one to `y`, keeps `x`, changes nothing but the player and the drawn pixels (buffer geometry and padding words kept), and leaves the buffer holding the rendered picture (`Displayed`) |
| Moves.PlayerMoveDown | code/win32_paths.cpp:208-220 | moving down subtracts one from `y`, keeps `x`, changes nothing but the player and the drawn pixels (buffer geometry and padding words kept), and leaves the buffer holding the rendered picture (`Displayed`) |
| Moves.PlayerMoveLeft | code/win32_paths.cpp:222-234 | moving left subtracts one from `x`, keeps `y`, changes nothing but the player and the drawn pixels (buffer geometry and padding words kept), and leaves the buffer holding the rendered picture (`Displayed`) |
| Moves.PlayerMoveRight | code/win32_paths.cpp:236-248 | moving right adds one to `x`, keeps `y`, changes nothing but the player and the drawn pixels (buffer geometry and padding words kept), and leaves the buffer holding the rendered picture (`Displayed`) |
| Moves.PlayerMove | code/win32_paths.cpp:194-248 | each direction shifts the player by its own unit step with no bounds or tile check, and changes nothing but the player and the drawn pixels (buffer geometry and padding words kept) |
| Moves.TwoMoves | code/win32_paths.cpp:194-248 | two consecutive moves give the same state as one redraw with the player at the summed offset |
| Moves.OppositeMoveRestores | code/win32_paths.cpp:194-248 | from a state whose buffer holds its rendered picture (`Displayed`), a move followed by its opposite gives back exactly the starting state, pixels included |
| Moves.MovesCommute | code/win32_paths.cpp:194-248 | the order of two moves does not matter |
| Keys.VKCode | code/win32_paths.cpp:269 | the key code has nothing above bit 31 and, with the word parameter's upper 32 bits, rebuilds that parameter |
| Keys.WasDown | code/win32_paths.cpp:270 | "was down" is exactly bit 30 of the flag word |
| Keys.IsDown | code/win32_paths.cpp:271 | "is down" holds exactly when bits 31 to 63 of the flag word are all clear, the effect of the sign-extended `1 << 31` |
| Keys.AltKeyWasDown | code/win32_paths.cpp:310 | the Alt test is exactly bit 29 of the flag word |
| Keys.KeyDirection | code/win32_paths.cpp:274-305 | a key maps to a move exactly when it is one of W, A, S, D and the four arrows, and a move up comes only from W or the up arrow |
| Keys.IsFreshPress | code/win32_paths.cpp:270-272 | a fresh press has the transition bit 31 and the previous-state bit 30 both clear |
| Keys.FreshPressBits | code/win32_paths.cpp:270-272 | for a key flag word with nothing above bit 31, a press counts as fresh exactly when bits 31 and 30 are both clear |
| Keys.KeyMapping | code/win32_paths.cpp:274-305 | W and up-arrow are exactly the codes that move up, A and left-arrow left, S and down-arrow down, D and right-arrow right; every other code moves nothing |
| Keys.KeyMessage | code/win32_paths.cpp:266-315 | a key message never changes the room, the seed or the cleared-room counter and keeps the state well formed |
| Keys.KeyMessageMoves | code/win32_paths.cpp:269-308 | on a fresh press of a movement key the result is exactly that key's player move (up to the Alt+F4 run flag); otherwise the state is unchanged apart from that run flag |
| Keys.AltF4Quits | code/win32_paths.cpp:310-314 | after a key message the game runs exactly when it ran before and the message was not F4 with the Alt bit set, whether the press is fresh or not |
| Keys.HighKeyBitsIgnored | code/win32_paths.cpp:269 | only the low 32 bits of the word parameter select the key |
| Keys.WindowCallback | code/win32_paths.cpp:256-342 | destroy and close clear the run flag and change nothing else, key-down and key-up do exactly what a key message does, paint and any other message leave the state unchanged, and no message changes the room, the seed or the counter |

## Left out

- The Win32 window, the message loop, `WM_PAINT`'s `StretchDIBits` and `DefWindowProc` (lines 317-415) are I/O. The callback treats painting and other messages as leaving the game state unchanged.
- `RedrawWindow` after a key press only invalidates the window. It is I/O with no effect on the state.
- The `VirtualAlloc` arena and the pointer layout behind it (state, then tiles, then pixels) are not modelled. Tile and pixel memory are sequences that keep their old contents between writes.
- The `BITMAPINFO` fields `biSize`, `biPlanes`, `biBitCount` and `biCompression` are platform constants. Only the two header fields derived from the room, width and height, are modelled.
- `WM_SYSKEYDOWN` is not modelled: Windows usually delivers Alt+F4 as a system key, which reaches `DefWindowProc`. The model covers the `WM_KEYDOWN`/`WM_KEYUP` path as written.
- The 32-bit build's 32-bit `LPARAM` is not modelled. The model takes the 64-bit width, where `1 << 31` widens to a mask of bits 31 to 63.
- Moves.PlayerMoveUp: the player's coordinates are unbounded integers, so 32-bit overflow after about two billion unchecked moves in one direction is not modelled. The same holds for the other three moves.
- Buffers.BufferFor: requires room sides of at most 1,000,000, so that the 32-bit buffer arithmetic cannot overflow. The only room the code builds is 9 by 7.
- `Seed` and `RoomsCleared` are only initialised; nothing in the code reads or advances them, so the model carries them unchanged.

=== FILE: arith.dfy ===
/** Integer facts the pixel and tile addressing rely on, and the bitwise AND
    that the pitch computation uses, stated on unbounded integers. */
module Arith {

  /** Euclidean division is unique: `n == q * d + r` with `0 <= r < d` splits back into `q` and `r`. */
  lemma {:induction false} DivModUnique(n: int, q: int, r: int, d: int)
    requires 0 < d && 0 <= r < d && n == q * d + r
    ensures n / d == q
    ensures n % d == r
  {
    var q', r' := n / d, n % d;
    assert n == q' * d + r';
    assert (q - q') * d == r' - r;
    if q' < q {
      MulAtLeast(q - q', d);
    } else if q' > q {
      MulAtLeast(q' - q, d);
    }
  }

  /** Dividing a non-negative number by a positive one gives a non-negative
      quotient and a remainder below the divisor. */
  lemma DivModBounds(n: int, d: int)
    requires 0 <= n && 0 < d
    ensures 0 <= n / d && 0 <= n % d < d
  {
  }

  /** A positive multiple of a positive number is at least that number. */
  lemma {:induction false} MulAtLeast(k: int, d: int)
    requires 1 <= k && 0 < d
    ensures k * d >= d
  {
    assert k * d == (k - 1) * d + d;
    MulNonNegative(k - 1, d);
  }

  lemma {:induction false} MulNonNegative(a: int, b: int)
    requires 0 <= a && 0 <= b
    ensures 0 <= a * b
  {
  }

  /** Multiplication by a non-negative number is monotone. */
  lemma {:induction false} MulMonotone(a: int, b: int, d: int)
    requires a <= b && 0 <= d
    ensures a * d <= b * d
  {
    assert b * d - a * d == (b - a) * d;
    MulNonNegative(b - a, d);
  }

  /** Stepping from row `y` to row `y + 1` of `d`-wide rows, where row
      `y + 1` still ends inside `h` rows. */
  lemma {:induction false} NextRow(y: int, h: int, d: int)
    requires 0 <= y < h && 0 <= d
    ensures y * d + d == (y + 1) * d
    ensures (y + 1) * d <= h * d
  {
    MulMonotone(y + 1, h, d);
  }

  /** Two's-complement bitwise AND of a non-negative integer `a` with any
      integer `b`, bit by bit from the least significant end. Euclidean `/ 2`
      and `% 2` are the arithmetic shift and the low bit also for negative `b`,
      so a negative mask behaves as its infinite sign extension. */
  function And(a: nat, b: int): (r: nat)
    ensures r <= a
    decreases a
  {
    if a == 0 then 0 else 2 * And(a / 2, b / 2) + (a % 2) * (b % 2)
  }

  /** Masking with all ones (`-1`) keeps every bit. */
  lemma {:induction false} AndAllOnes(a: nat)
    ensures And(a, -1) == a
  {
    if a != 0 {
      AndAllOnes(a / 2);
    }
  }

  /** A mask whose low bit is clear shifts the problem one bit up. */
  lemma AndEvenMask(a: nat, b: int)
    ensures And(a, 2 * b) == 2 * And(a / 2, b)
  {
    if a != 0 {
      assert (2 * b) / 2 == b && (2 * b) % 2 == 0;
    }
  }

  /** `a & ~15` (where `~15 == -16`) rounds `a` down to a multiple of 16. */
  lemma {:induction false} AndClearsLowFour(a: nat)
    ensures And(a, -16) == a - a % 16
    ensures And(a, -16) % 16 == 0 && a - 16 < And(a, -16) <= a
  {
    AndEvenMask(a, -8);
    AndEvenMask(a / 2, -4);
    AndEvenMask(a / 4, -2);
    AndEvenMask(a / 8, -1);
    assert a / 2 / 2 == a / 4 && a / 4 / 2 == a / 8 && a / 8 / 2 == a / 16;
    AndAllOnes(a / 16);
    DivModUnique(a - a % 16, a / 16, 0, 16);
  }
}

=== FILE: buffer.dfy ===
/** Sizing of the offscreen pixel buffer from the room's size: every tile is
    five pixels plus a one-pixel gridline, four bytes per pixel, and each row
    padded to a 16-byte boundary. */
module Buffers {
  import opened Arith
  import opened Game

  const BytesPerPixel := 4
  const TileWidth := 5
  const TileSpace := 1
  const TileOffset := TileWidth + TileSpace

  /** Largest room side for which the buffer arithmetic stays far inside 32-bit ints. */
  const MaxRoomSide := 1_000_000

  /** `(rowBytes + 15) & ~15` on a 32-bit int: with `~15 == -16`, the row
      length rounded up to the next multiple of 16. */
  function PadPitch(rowBytes: nat): (pitch: nat)
    ensures pitch % 16 == 0
    ensures rowBytes <= pitch < rowBytes + 16
  {
    AndClearsLowFour(rowBytes + 15);
    And(rowBytes + 15, -16)
  }

  /** The buffer geometry for a room of the given size, over existing pixel
      memory. The bitmap header's width is the padded row in pixels, so a blit
      reads whole rows including their padding. */
  function BufferFor(roomWidth: int, roomHeight: int, memory: seq<u32>): (b: OffscreenBuffer)
    requires 0 < roomWidth <= MaxRoomSide && 0 < roomHeight <= MaxRoomSide
    ensures b.width == roomWidth * TileOffset + TileSpace && b.height == roomHeight * TileOffset + TileSpace
    ensures b.width <= b.infoWidth
    ensures b.infoHeight == b.height && b.tileOffset == TileOffset
    ensures b.memory == memory
  {
    var width := roomWidth * TileOffset + TileSpace;
    var height := roomHeight * TileOffset + TileSpace;
    var pitch := PadPitch(width * BytesPerPixel);
    OffscreenBuffer(width, height, pitch, TileOffset, BytesPerPixel, pitch / BytesPerPixel, height, memory)
  }

  /** Number of 32-bit words of pixel memory the buffer of a room needs:
      every row, padding included. */
  function PixelWords(roomWidth: int, roomHeight: int): nat
    requires 0 < roomWidth <= MaxRoomSide && 0 < roomHeight <= MaxRoomSide
  {
    var b := BufferFor(roomWidth, roomHeight, []);
    MulNonNegative(b.height, b.infoWidth);
    b.height * b.infoWidth
  }

  /** A row is padded to a multiple of 16 bytes, by less than 16 bytes, and
      the bitmap header's width covers the padded row exactly. */
  lemma PaddedRow(roomWidth: int, roomHeight: int, memory: seq<u32>)
    requires 0 < roomWidth <= MaxRoomSide && 0 < roomHeight <= MaxRoomSide
    ensures var b := BufferFor(roomWidth, roomHeight, memory);
            && b.pitch % 16 == 0
            && b.width * BytesPerPixel <= b.pitch < b.width * BytesPerPixel + 16
            && b.infoWidth * BytesPerPixel == b.pitch
  {
  }

  /** The padded row is the least multiple of 16 bytes that holds the row's pixels. */
  lemma PitchIsLeastMultipleOf16(roomWidth: int, roomHeight: int, memory: seq<u32>, m: int)
    requires 0 < roomWidth <= MaxRoomSide && 0 < roomHeight <= MaxRoomSide
    requires m % 16 == 0 && m >= BufferFor(roomWidth, roomHeight, memory).width * BytesPerPixel
    ensures BufferFor(roomWidth, roomHeight, memory).pitch <= m
  {
    PaddedRow(roomWidth, roomHeight, memory);
  }

  /** For the 9 by 7 room: 55 by 43 pixels, 224-byte rows, a 56 by 43 bitmap. */
  lemma RoomBufferGeometry(memory: seq<u32>)
    ensures BufferFor(9, 7, memory).width == 55
    ensures BufferFor(9, 7, memory).height == 43
    ensures BufferFor(9, 7, memory).pitch == 224
    ensures BufferFor(9, 7, memory).infoWidth == 56
    ensures BufferFor(9, 7, memory).infoHeight == 43
    ensures PixelWords(9, 7) == 43 * 56
  {
  }
}

=== FILE: drawing.dfy ===
/** Drawing the room into the pixel buffer. `PixelColour` says what colour a
    pixel has; `Render` is the whole buffer as a pure function of the state;
    `RedrawRoom` is the C++ `RedrawRoom` loop with its running counters,
    proved to produce exactly `Render`. */
module Drawing {
  import opened Arith
  import opened Game
  import opened Buffers

  const Gridline: u32 := 0x0000_0000
  const PlayerEven: u32 := 0x006F_6F6F
  const PlayerOdd: u32 := 0x008F_8F8F
  const FreeColour: u32 := 0x00FF_FFFF
  const BlockedColour: u32 := 0x000F_0F0F

  /** The state's room, tiles and buffer fit together as the drawing needs:
      one tile per cell, a buffer of six pixels per cell plus the closing
      gridline, padded rows at least that wide whose byte pitch is four
      bytes per word of a row, and memory for every row. */
  predicate WellFormed(g: GameState)
  {
    && 0 < g.room.width
    && 0 < g.room.height
    && |g.room.tiles| == g.room.width * g.room.height
    && g.buffer.width == g.room.width * TileOffset + TileSpace
    && g.buffer.height == g.room.height * TileOffset + TileSpace
    && g.buffer.tileOffset == TileOffset
    && g.buffer.width <= g.buffer.infoWidth
    && g.buffer.pitch == BytesPerPixel * g.buffer.infoWidth
    && |g.buffer.memory| == g.buffer.height * g.buffer.infoWidth
  }

  /** A well-formed state whose buffer is exactly the one sized for its room. */
  predicate Sized(g: GameState)
  {
    && WellFormed(g)
    && g.room.width <= MaxRoomSide && g.room.height <= MaxRoomSide
    && g.buffer == BufferFor(g.room.width, g.room.height, g.buffer.memory)
  }

  /** The colour of pixel `(px, py)`: gridlines every six pixels are black;
      the player's cell is a checkerboard of two greys whatever the tile is;
      other cells are white when free and near-black when blocked. A tile is
      consulted only off the gridlines, where its cell is inside the grid even
      though the buffer has one pixel more than the cells cover. */
  function PixelColour(g: GameState, px: int, py: int): (c: u32)
    requires WellFormed(g)
    requires 0 <= px < g.buffer.width && 0 <= py < g.buffer.height
    ensures c == Gridline <==> px % TileOffset == 0 || py % TileOffset == 0
    ensures c == PlayerEven || c == PlayerOdd ==> px / TileOffset == g.x && py / TileOffset == g.y
  {
    if px % TileOffset == 0 || py % TileOffset == 0 then
      Gridline
    else if px / TileOffset == g.x && py / TileOffset == g.y then
      if px % 2 == py % 2 then PlayerEven else PlayerOdd
    else if g.room.tiles[GetTile(g.room, px / TileOffset, py / TileOffset)].isFree then
      FreeColour
    else
      BlockedColour
  }

  /** Word `i` of the drawn buffer: the pixel it holds, or, in a row's
      padding, whatever the memory held before. */
  function RenderedWord(g: GameState, i: int): u32
    requires WellFormed(g) && 0 <= i < |g.buffer.memory|
  {
    var stride := g.buffer.infoWidth;
    DivModBounds(i, stride);
    var px, py := i % stride, i / stride;
    if px < g.buffer.width && py < g.buffer.height then PixelColour(g, px, py) else g.buffer.memory[i]
  }

  /** The buffer's memory after a full redraw. */
  function Render(g: GameState): (memory: seq<u32>)
    requires WellFormed(g)
    ensures |memory| == |g.buffer.memory|
    ensures forall i :: 0 <= i < |memory| && OffPicture(g.buffer, i) ==> memory[i] == g.buffer.memory[i]
  {
    seq(|g.buffer.memory|, i requires 0 <= i < |g.buffer.memory| => RenderedWord(g, i))
  }

  /** The state with its buffer redrawn. */
  function Redraw(g: GameState): (r: GameState)
    requires WellFormed(g)
    ensures WellFormed(r) && Displayed(r)
    ensures r.running == g.running && r.seed == g.seed && r.roomsCleared == g.roomsCleared
    ensures r.x == g.x && r.y == g.y && r.room == g.room
    ensures r.buffer.(memory := g.buffer.memory) == g.buffer
    ensures forall i :: 0 <= i < |g.buffer.memory| && OffPicture(g.buffer, i) ==>
              r.buffer.memory[i] == g.buffer.memory[i]
  {
    var r := g.(buffer := g.buffer.(memory := Render(g)));
    RedrawForgetsOldPixels(g, g.x, g.y);
    r
  }

  /** The buffer shows the state: it is exactly what a redraw would write. */
  predicate Displayed(g: GameState)
  {
    WellFormed(g) && g.buffer.memory == Render(g)
  }

  /** A redraw overwrites every pixel, so after moving the player a second
      redraw gives the same buffer as one redraw of the moved state: the old
      picture leaves no trace except in the rows' padding, which no redraw
      touches. */
  lemma {:induction false} RedrawForgetsOldPixels(g: GameState, x: int, y: int)
    requires WellFormed(g)
    ensures var h := g.(buffer := g.buffer.(memory := Render(g))).(x := x, y := y);
            WellFormed(h) && Render(h) == Render(g.(x := x, y := y))
  {
    var h := g.(buffer := g.buffer.(memory := Render(g))).(x := x, y := y);
    var k := g.(x := x, y := y);
    forall i | 0 <= i < |g.buffer.memory| && OffPicture(g.buffer, i)
      ensures h.buffer.memory[i] == k.buffer.memory[i]
    {
      assert h.buffer.memory[i] == RenderedWord(g, i);
    }
    SamePictureSameRender(h, k);
  }

  /** Word `i` of the buffer's memory is row padding, outside every pixel. */
  predicate OffPicture(b: OffscreenBuffer, i: int)
    requires 0 < b.infoWidth
  {
    i % b.infoWidth >= b.width || i / b.infoWidth >= b.height
  }

  /** Two states that agree on the room, the player's cell, the buffer
      geometry and the padding words render the same memory. */
  lemma {:induction false} SamePictureSameRender(h: GameState, k: GameState)
    requires WellFormed(h) && WellFormed(k)
    requires h.room == k.room && h.x == k.x && h.y == k.y
    requires h.buffer.(memory := k.buffer.memory) == k.buffer
    requires forall i :: 0 <= i < |h.buffer.memory| && OffPicture(h.buffer, i) ==> h.buffer.memory[i] == k.buffer.memory[i]
    ensures Render(h) == Render(k)
  {
    forall i | 0 <= i < |h.buffer.memory|
      ensures Render(h)[i] == Render(k)[i]
    {
      var stride := h.buffer.infoWidth;
      DivModBounds(i, stride);
      if !OffPicture(h.buffer, i) {
        assert PixelColour(h, i % stride, i / stride) == PixelColour(k, i % stride, i / stride);
      }
    }
  }

  /** Pixel `(px, py)` is the 32-bit word at byte offset `py * pitch + 4 * px`,
      and a redraw puts `PixelColour` there. */
  lemma PixelAddress(g: GameState, px: int, py: int)
    requires WellFormed(g)
    requires 0 <= px < g.buffer.width && 0 <= py < g.buffer.height
    ensures var i := py * g.buffer.infoWidth + px;
            && 0 <= i < |g.buffer.memory|
            && i * BytesPerPixel == py * g.buffer.pitch + BytesPerPixel * px
            && Render(g)[i] == PixelColour(g, px, py)
  {
    var stride := g.buffer.infoWidth;
    var i := py * stride + px;
    RowMajorFacts(stride, g.buffer.height, px, py);
    assert Render(g)[i] == RenderedWord(g, i);
    WordOffset(i, py, px, stride, g.buffer.pitch);
  }

  /** Word `py * stride + px` starts at byte `py * pitch + 4 * px` when a row
      of `stride` words is `pitch` bytes. */
  lemma WordOffset(i: int, py: int, px: int, stride: int, pitch: int)
    requires i == py * stride + px && pitch == BytesPerPixel * stride
    ensures i * BytesPerPixel == py * pitch + BytesPerPixel * px
  {
  }

  /** A redraw never writes the padding at the end of a row. */
  lemma PaddingKept(g: GameState, i: int)
    requires WellFormed(g) && 0 <= i < |g.buffer.memory|
    requires i % g.buffer.infoWidth >= g.buffer.width
    ensures Render(g)[i] == g.buffer.memory[i]
  {
  }

  /** The colour rule, case by case: a pixel is black exactly on the
      gridlines; inside the player's cell it is one of the two greys by the
      parity of its coordinates; elsewhere it is white exactly when its tile
      is free. */
  lemma ColourRule(g: GameState, px: int, py: int)
    requires WellFormed(g)
    requires 0 <= px < g.buffer.width && 0 <= py < g.buffer.height
    ensures PixelColour(g, px, py) == Gridline <==> px % TileOffset == 0 || py % TileOffset == 0
    ensures px % TileOffset != 0 && py % TileOffset != 0 && (px / TileOffset, py / TileOffset) == (g.x, g.y) ==>
              PixelColour(g, px, py) == (if px % 2 == py % 2 then PlayerEven else PlayerOdd)
    ensures px % TileOffset != 0 && py % TileOffset != 0 && (px / TileOffset, py / TileOffset) != (g.x, g.y) ==>
              var tile := GetTile(g.room, px / TileOffset, py / TileOffset);
              && 0 <= tile < |g.room.tiles|
              && (PixelColour(g, px, py) == FreeColour <==> g.room.tiles[tile].isFree)
              && (!g.room.tiles[tile].isFree ==> PixelColour(g, px, py) == BlockedColour)
  {
  }

  /** A player standing outside the grid is not drawn at all. */
  lemma PlayerOffGridInvisible(g: GameState, px: int, py: int)
    requires WellFormed(g)
    requires 0 <= px < g.buffer.width && 0 <= py < g.buffer.height
    requires !(0 <= g.x < g.room.width && 0 <= g.y < g.room.height)
    ensures PixelColour(g, px, py) != PlayerEven && PixelColour(g, px, py) != PlayerOdd
  {
  }

  /** The C++ `RedrawRoom` loop: one pass over the rows, with
      `subY`/`tileY` counting pixel rows within a tile and whole tiles so far
      instead of dividing, and `pixelRow` stepping one padded row at a time.
      It writes exactly the rendered buffer. */
  method RedrawRoom(g: GameState) returns (memory: seq<u32>)
    requires WellFormed(g)
    ensures |memory| == |g.buffer.memory|
    ensures forall i :: 0 <= i < |memory| ==> memory[i] == RenderedWord(g, i)
    ensures memory == Render(g)
  {
    var b := g.buffer;
    var stride := b.pitch / BytesPerPixel;
    memory := b.memory;
    var pixelRow := 0;
    var tileY := 0;
    var subY := 0;
    var y := 0;
    while y < b.height
      invariant 0 <= y <= b.height
      invariant subY == y % TileOffset && tileY == y / TileOffset
      invariant pixelRow == y * stride
      invariant DrawnBelow(g, memory, pixelRow)
    {
      NextRow(y, b.height, stride);
      memory := DrawNextRow(g, y, subY, tileY, pixelRow, memory);
      CounterStep(y, subY, tileY);
      subY := subY + 1;
      if subY == b.tileOffset {
        subY := 0;
        tileY := tileY + 1;
      }
      pixelRow := pixelRow + stride;
      y := y + 1;
    }
    AllWordsRendered(g, memory);
  }

  /** The words below `n` hold their rendered value and the words from `n`
      on still hold what the memory held before the redraw. */
  predicate DrawnBelow(g: GameState, memory: seq<u32>, n: int)
    requires WellFormed(g)
  {
    && |memory| == |g.buffer.memory|
    && 0 <= n <= |memory|
    && (forall i :: 0 <= i < n ==> memory[i] == RenderedWord(g, i))
    && (forall i :: n <= i < |memory| ==> memory[i] == g.buffer.memory[i])
  }

  /** One step of the outer loop: rows above `y` are already drawn; drawing
      row `y` extends the drawn part by one padded row. */
  method DrawNextRow(g: GameState, y: int, subY: int, tileY: int, pixelRow: int, memory: seq<u32>)
    returns (next: seq<u32>)
    requires WellFormed(g) && 0 <= y < g.buffer.height
    requires subY == y % TileOffset && tileY == y / TileOffset
    requires pixelRow == y * g.buffer.infoWidth && pixelRow + g.buffer.infoWidth <= |memory|
    requires DrawnBelow(g, memory, pixelRow)
    ensures DrawnBelow(g, next, pixelRow + g.buffer.infoWidth)
  {
    next := DrawRow(g, y, subY, tileY, pixelRow, memory);
    RowIsRendered(g, y, pixelRow, memory, next);
  }

  /** Counting pixels within a tile and wrapping at the tile size keeps the
      counters equal to the remainder and the quotient by the tile size. */
  lemma CounterStep(n: int, sub: int, tile: int)
    requires 0 <= n && sub == n % TileOffset && tile == n / TileOffset
    ensures sub + 1 == TileOffset ==> (n + 1) % TileOffset == 0 && (n + 1) / TileOffset == tile + 1
    ensures sub + 1 != TileOffset ==> (n + 1) % TileOffset == sub + 1 && (n + 1) / TileOffset == tile
  {
  }

  /** Memory whose every word is the rendered word is the rendered buffer. */
  lemma AllWordsRendered(g: GameState, memory: seq<u32>)
    requires WellFormed(g) && DrawnBelow(g, memory, |memory|)
    ensures memory == Render(g)
  {
  }

  /** `row` is `memory` with the pixels of row `y`, starting at word
      `pixelRow`, written and every other word kept. */
  predicate RowDrawn(g: GameState, y: int, pixelRow: int, memory: seq<u32>, row: seq<u32>)
    requires WellFormed(g) && 0 <= y < g.buffer.height && 0 <= pixelRow
  {
    && |row| == |memory|
    && pixelRow + g.buffer.width <= |row|
    && (forall i :: pixelRow <= i < pixelRow + g.buffer.width ==> row[i] == PixelColour(g, i - pixelRow, y))
    && (forall i :: 0 <= i < |row| && !(pixelRow <= i < pixelRow + g.buffer.width) ==> row[i] == memory[i])
  }

  /** A row drawn over not-yet-drawn memory holds the rendered words of that
      row, padding included. */
  lemma RowIsRendered(g: GameState, y: int, pixelRow: int, memory: seq<u32>, row: seq<u32>)
    requires WellFormed(g) && 0 <= y < g.buffer.height && pixelRow == y * g.buffer.infoWidth
    requires |memory| == |g.buffer.memory| && pixelRow + g.buffer.infoWidth <= |memory|
    requires forall i :: pixelRow <= i < |memory| ==> memory[i] == g.buffer.memory[i]
    requires RowDrawn(g, y, pixelRow, memory, row)
    ensures forall i :: pixelRow <= i < pixelRow + g.buffer.infoWidth ==> row[i] == RenderedWord(g, i)
  {
    forall i | pixelRow <= i < pixelRow + g.buffer.infoWidth
      ensures row[i] == RenderedWord(g, i)
    {
      DivModUnique(i, y, i - pixelRow, g.buffer.infoWidth);
    }
  }

  /** The inner loop of the drawing: the pixels of row `y`, which starts at
      word `pixelRow`, with `subX`/`tileX` counting pixels within a tile and
      whole tiles so far. It writes the row's pixels and nothing else, not
      even the row's padding. */
  method DrawRow(g: GameState, y: int, subY: int, tileY: int, pixelRow: int, memory: seq<u32>)
    returns (row: seq<u32>)
    requires WellFormed(g) && 0 <= y < g.buffer.height
    requires subY == y % TileOffset && tileY == y / TileOffset
    requires 0 <= pixelRow && pixelRow + g.buffer.infoWidth <= |memory|
    ensures RowDrawn(g, y, pixelRow, memory, row)
  {
    var b := g.buffer;
    row := memory;
    var pixel := pixelRow;
    var tileX := 0;
    var subX := 0;
    var x := 0;
    while x < b.width
      invariant 0 <= x <= b.width
      invariant subX == x % TileOffset && tileX == x / TileOffset
      invariant pixel == pixelRow + x
      invariant |row| == |memory|
      invariant forall i :: pixelRow <= i < pixel ==> row[i] == PixelColour(g, i - pixelRow, y)
      invariant forall i :: 0 <= i < |row| && !(pixelRow <= i < pixel) ==> row[i] == memory[i]
    {
      var tile := GetTile(g.room, tileX, tileY);
      var colour;
      if subX == 0 || subY == 0 {
        colour := Gridline;
      } else if tileX == g.x && tileY == g.y {
        if x % 2 == y % 2 {
          colour := PlayerEven;
        } else {
          colour := PlayerOdd;
        }
      } else if g.room.tiles[tile].isFree {
        colour := FreeColour;
      } else {
        colour := BlockedColour;
      }
      row := row[pixel := colour];
      pixel := pixel + 1;
      CounterStep(x, subX, tileX);
      subX := subX + 1;
      if subX == b.tileOffset {
        subX := 0;
        tileX := tileX + 1;
      }
      x := x + 1;
    }
  }
}

=== FILE: game.dfy ===
/** The game's records: tiles, the room grid, the pixel buffer and the game
    state, with the row-major tile addressing of `GetTile`. */
module Game {
  import opened Arith

  /** A 32-bit unsigned word; a pixel is `0x00RRGGBB` with the top byte unused. */
  type u32 = n: int | 0 <= n < 0x1_0000_0000

  /** One grid cell: walkable or not, and the coordinates of the cells before
      and after it along the path. */
  datatype GameTile = GameTile(isFree: bool, previousX: int, previousY: int, nextX: int, nextY: int)

  /** A tile record in memory that nothing has written yet (the arena is zero-filled). */
  const ZeroTile := GameTile(false, 0, 0, 0, 0)

  /** The grid: `width * height` tiles stored row by row. */
  datatype GameRoom = GameRoom(width: int, height: int, tiles: seq<GameTile>)

  /** The offscreen pixel buffer: its geometry, the two bitmap-header fields
      derived from it, and its memory as 32-bit words, `infoWidth` words per
      row (the row pitch divided by the pixel size). */
  datatype OffscreenBuffer = OffscreenBuffer(
    width: int,
    height: int,
    pitch: int,
    tileOffset: int,
    bytesPerPixel: int,
    infoWidth: int,
    infoHeight: int,
    memory: seq<u32>)

  /** The whole game: run flag, seed and cleared-room counter (only ever
      initialised here), the player's cell, the room and the pixel buffer. */
  datatype GameState = GameState(
    running: bool,
    seed: int,
    roomsCleared: int,
    x: int,
    y: int,
    room: GameRoom,
    buffer: OffscreenBuffer)

  /** The tile at `(x, y)` lives at flat index `x + y * width`. Nothing is
      checked; inside the grid the index is a valid tile and it gives back the
      column and the row. */
  function GetTile(room: GameRoom, x: int, y: int): (i: int)
    ensures 0 <= x < room.width && 0 <= y < room.height ==> 0 <= i < room.width * room.height
    ensures 0 <= x < room.width ==> i % room.width == x && i / room.width == y
  {
    RowMajorFacts(room.width, room.height, x, y);
    x + y * room.width
  }

  lemma {:induction false} RowMajorFacts(w: int, h: int, x: int, y: int)
    ensures 0 <= x < w && 0 <= y < h ==> 0 <= x + y * w < w * h
    ensures 0 <= x < w ==> (x + y * w) % w == x && (x + y * w) / w == y
  {
    if 0 <= x < w {
      DivModUnique(x + y * w, y, x, w);
      if 0 <= y < h {
        MulMonotone(y, h - 1, w);
        MulNonNegative(y, w);
      }
    }
  }

  /** The flat indices of the free tiles. */
  function FreeTiles(room: GameRoom): set<int>
  {
    set i | 0 <= i < |room.tiles| && room.tiles[i].isFree
  }

  /** Every flat index of the grid is the address of exactly one cell:
      `(i % width, i / width)` lies inside the grid and maps back to `i`. */
  lemma {:induction false} TileCoordinates(room: GameRoom, i: int)
    requires 0 < room.width && 0 <= i < room.width * room.height
    ensures 0 <= i % room.width < room.width
    ensures 0 <= i / room.width < room.height
    ensures GetTile(room, i % room.width, i / room.width) == i
  {
    var w, q := room.width, i / room.width;
    assert i == q * w + i % w;
    if q < 0 {
      MulAtLeast(-q, w);
    }
    if q >= room.height {
      MulMonotone(room.height, q, w);
    }
  }

  /** Distinct cells of the grid have distinct flat indices. */
  lemma GetTileInjective(room: GameRoom, x1: int, y1: int, x2: int, y2: int)
    requires 0 <= x1 < room.width && 0 <= x2 < room.width
    requires GetTile(room, x1, y1) == GetTile(room, x2, y2)
    ensures x1 == x2 && y1 == y2
  {
  }
}

=== FILE: keys.dfy ===
/** The window callback's message handling: close and destroy stop the run;
    a key message moves the player on a fresh press of W/A/S/D or an arrow
    key, and Alt+F4 stops the run. Virtual-key codes and the key message's
    flag word follow the Win32 keyboard-input conventions. */
module Keys {
  import opened Game
  import opened Drawing
  import opened Moves

  const KeyW: bv64 := 0x57
  const KeyA: bv64 := 0x41
  const KeyS: bv64 := 0x53
  const KeyD: bv64 := 0x44
  const VkLeft: bv64 := 0x25
  const VkUp: bv64 := 0x26
  const VkRight: bv64 := 0x27
  const VkDown: bv64 := 0x28
  const VkF4: bv64 := 0x73

  /** `1 << 29`: the Alt key is held. */
  const ContextMask: bv64 := 1 << 29
  /** `1 << 30`: the key was already down before this message. */
  const PreviousStateMask: bv64 := 1 << 30
  /** Bit 31 of the flag word alone: the key is being released. */
  const Bit31: bv64 := 1 << 31
  /** `1 << 31` is the 32-bit int `INT_MIN`; widened to the 64-bit flag word
      it is sign-extended, so the test covers bit 31 and everything above. */
  const TransitionMask: bv64 := 0xFFFF_FFFF_8000_0000

  /** The message kinds the callback distinguishes; `Other` goes to the
      default window procedure. */
  datatype Message = Destroy | Close | KeyDown | KeyUp | Paint | Other

  /** What a key does to the player. */
  datatype KeyAction = Ignore | Step(direction: Direction)

  /** The virtual-key code: the word parameter cast to 32 bits. */
  function VKCode(wParam: bv64): (vk: bv64)
    ensures vk >> 32 == 0
    ensures ((wParam >> 32) << 32) | vk == wParam
  {
    wParam & 0xFFFF_FFFF
  }

  /** Bit 30 of the flag word is set. */
  function WasDown(lParam: bv64): (was: bool)
    ensures was <==> (lParam >> 30) & 1 == 1
  {
    lParam & PreviousStateMask != 0
  }

  /** Bits 31 and up of the flag word are all clear. */
  function IsDown(lParam: bv64): (down: bool)
    ensures down <==> lParam >> 31 == 0
  {
    lParam & TransitionMask == 0
  }

  /** A fresh press: the key is down now and was not before, so key-repeat
      and key-release messages never count. */
  function IsFreshPress(lParam: bv64): (pressed: bool)
    ensures pressed ==> lParam & Bit31 == 0 && lParam & PreviousStateMask == 0
  {
    IsDown(lParam) && !WasDown(lParam)
  }

  /** Bit 29 of the flag word is set. */
  function AltKeyWasDown(lParam: bv64): (alt: bool)
    ensures alt <==> (lParam >> 29) & 1 == 1
  {
    lParam & ContextMask != 0
  }

  /** The key-to-move chain: W and the up arrow move up, A and the left
      arrow left, S and the down arrow down, D and the right arrow right. */
  function KeyDirection(vk: bv64): (action: KeyAction)
    ensures action.Step? <==> vk in {KeyW, KeyA, KeyS, KeyD, VkUp, VkLeft, VkDown, VkRight}
    ensures action == Step(Up) ==> vk == KeyW || vk == VkUp
  {
    if vk == KeyW then Step(Up)
    else if vk == KeyA then Step(Left)
    else if vk == KeyS then Step(Down)
    else if vk == KeyD then Step(Right)
    else if vk == VkUp then Step(Up)
    else if vk == VkLeft then Step(Left)
    else if vk == VkDown then Step(Down)
    else if vk == VkRight then Step(Right)
    else Ignore
  }

  /** A key-down or key-up message: on a fresh press the mapped move, then,
      independently of the press test, Alt+F4 clears the run flag. */
  function KeyMessage(g: GameState, wParam: bv64, lParam: bv64): (r: GameState)
    requires WellFormed(g)
    ensures WellFormed(r)
    ensures r.room == g.room && r.seed == g.seed && r.roomsCleared == g.roomsCleared
  {
    var vk := VKCode(wParam);
    var moved :=
      if IsFreshPress(lParam) then
        match KeyDirection(vk)
        case Step(d) => PlayerMove(g, d)
        case Ignore => g
      else g;
    if vk == VkF4 && AltKeyWasDown(lParam) then moved.(running := false) else moved
  }

  /** The window callback's effect on the game state. Painting only copies
      the buffer to the window and the default procedure is outside the
      game, so neither changes the state. */
  function WindowCallback(g: GameState, message: Message, wParam: bv64, lParam: bv64): (r: GameState)
    requires WellFormed(g)
    ensures WellFormed(r)
    ensures r.room == g.room && r.seed == g.seed && r.roomsCleared == g.roomsCleared
    ensures message == Destroy || message == Close ==> !r.running && r == g.(running := false)
    ensures message == KeyDown || message == KeyUp ==> r == KeyMessage(g, wParam, lParam)
    ensures message == Paint || message == Other ==> r == g
  {
    match message
    case Destroy => g.(running := false)
    case Close => g.(running := false)
    case KeyDown => KeyMessage(g, wParam, lParam)
    case KeyUp => KeyMessage(g, wParam, lParam)
    case Paint => g
    case Other => g
  }

  /** For a flag word as Windows builds it for keystrokes (nothing above bit
      31), a fresh press is exactly: transition bit 31 clear and
      previous-state bit 30 clear. */
  lemma FreshPressBits(lParam: bv64)
    requires lParam & 0xFFFF_FFFF_0000_0000 == 0
    ensures IsFreshPress(lParam) <==> lParam & Bit31 == 0 && lParam & PreviousStateMask == 0
  {
  }

  /** Exactly the eight movement keys map to a move, each to its own
      direction; every other code is ignored. */
  lemma KeyMapping(vk: bv64)
    ensures KeyDirection(vk) == Step(Up) <==> vk == KeyW || vk == VkUp
    ensures KeyDirection(vk) == Step(Left) <==> vk == KeyA || vk == VkLeft
    ensures KeyDirection(vk) == Step(Down) <==> vk == KeyS || vk == VkDown
    ensures KeyDirection(vk) == Step(Right) <==> vk == KeyD || vk == VkRight
    ensures KeyDirection(vk) == Ignore <==>
              vk !in {KeyW, KeyA, KeyS, KeyD, VkUp, VkLeft, VkDown, VkRight}
  {
  }

  /** The player moves on a key message exactly when the press is fresh and
      the key is a movement key, and then by that key's direction; otherwise
      the position and the pixels stay as they were. */
  lemma KeyMessageMoves(g: GameState, wParam: bv64, lParam: bv64)
    requires WellFormed(g)
    ensures var r := KeyMessage(g, wParam, lParam);
            var action := KeyDirection(VKCode(wParam));
            if IsFreshPress(lParam) && action.Step? then
              && r.x == g.x + DeltaX(action.direction) && r.y == g.y + DeltaY(action.direction)
              && Displayed(r)
              && r.(running := g.running) == PlayerMove(g, action.direction)
            else
              && r.x == g.x && r.y == g.y && r.buffer == g.buffer
              && r.(running := g.running) == g
  {
  }

  /** Alt+F4 stops the run whether or not the press is fresh, even on key
      release; any other key message leaves the run flag alone. */
  lemma AltF4Quits(g: GameState, wParam: bv64, lParam: bv64)
    requires WellFormed(g)
    ensures KeyMessage(g, wParam, lParam).running <==>
              g.running && !(VKCode(wParam) == VkF4 && AltKeyWasDown(lParam))
  {
  }

  /** Only the low 32 bits of the word parameter select the key. */
  lemma HighKeyBitsIgnored(g: GameState, wParam: bv64, lParam: bv64, high: bv64)
    requires WellFormed(g)
    ensures KeyMessage(g, wParam | (high << 32), lParam) == KeyMessage(g, wParam, lParam)
  {
    assert VKCode(wParam | (high << 32)) == VKCode(wParam);
  }
}

=== FILE: moves.dfy ===
/** The four player moves: each shifts one coordinate by one, with no bounds
    check and no look at the tiles, and redraws. */
module Moves {
  import opened Game
  import opened Drawing

  datatype Direction = Up | Down | Left | Right

  /** Column change of a move. */
  function DeltaX(d: Direction): int
  {
    match d
    case Left => -1
    case Right => 1
    case _ => 0
  }

  /** Row change of a move; rows count upwards, so `Up` adds one. */
  function DeltaY(d: Direction): int
  {
    match d
    case Up => 1
    case Down => -1
    case _ => 0
  }

  /** The move that undoes `d`. */
  function Opposite(d: Direction): (e: Direction)
    ensures DeltaX(e) == -DeltaX(d) && DeltaY(e) == -DeltaY(d)
  {
    match d
    case Up => Down
    case Down => Up
    case Left => Right
    case Right => Left
  }

  /** `r` is `g` with only the player's cell and the pixels changed: the
      buffer geometry and every padding word stay as they were. */
  predicate OnlyPlayerMoved(g: GameState, r: GameState)
  {
    && r.running == g.running
    && r.seed == g.seed
    && r.roomsCleared == g.roomsCleared
    && r.room == g.room
    && r.buffer.(memory := g.buffer.memory) == g.buffer
    && |r.buffer.memory| == |g.buffer.memory|
    && (0 < g.buffer.infoWidth ==>
          forall i :: 0 <= i < |g.buffer.memory| && OffPicture(g.buffer, i) ==> r.buffer.memory[i] == g.buffer.memory[i])
  }

  function PlayerMoveUp(g: GameState): (r: GameState)
    requires WellFormed(g)
    ensures Displayed(r) && OnlyPlayerMoved(g, r)
    ensures r.x == g.x && r.y == g.y + 1
  {
    Redraw(g.(y := g.y + 1))
  }

  function PlayerMoveDown(g: GameState): (r: GameState)
    requires WellFormed(g)
    ensures Displayed(r) && OnlyPlayerMoved(g, r)
    ensures r.x == g.x && r.y == g.y - 1
  {
    Redraw(g.(y := g.y - 1))
  }

  function PlayerMoveLeft(g: GameState): (r: GameState)
    requires WellFormed(g)
    ensures Displayed(r) && OnlyPlayerMoved(g, r)
    ensures r.x == g.x - 1 && r.y == g.y
  {
    Redraw(g.(x := g.x - 1))
  }

  function PlayerMoveRight(g: GameState): (r: GameState)
    requires WellFormed(g)
    ensures Displayed(r) && OnlyPlayerMoved(g, r)
    ensures r.x == g.x + 1 && r.y == g.y
  {
    Redraw(g.(x := g.x + 1))
  }

  /** The move for a direction. */
  function PlayerMove(g: GameState, d: Direction): (r: GameState)
    requires WellFormed(g)
    ensures Displayed(r) && OnlyPlayerMoved(g, r)
    ensures r.x == g.x + DeltaX(d) && r.y == g.y + DeltaY(d)
  {
    match d
    case Up => PlayerMoveUp(g)
    case Down => PlayerMoveDown(g)
    case Left => PlayerMoveLeft(g)
    case Right => PlayerMoveRight(g)
  }

  /** Two moves in a row draw the same as jumping straight to the final
      cell. */
  lemma {:induction false} TwoMoves(g: GameState, d: Direction, e: Direction)
    requires WellFormed(g)
    ensures PlayerMove(PlayerMove(g, d), e)
            == Redraw(g.(x := g.x + DeltaX(d) + DeltaX(e), y := g.y + DeltaY(d) + DeltaY(e)))
  {
    var moved := g.(x := g.x + DeltaX(d), y := g.y + DeltaY(d));
    var x, y := g.x + DeltaX(d) + DeltaX(e), g.y + DeltaY(d) + DeltaY(e);
    assert PlayerMove(g, d) == Redraw(moved);
    assert PlayerMove(Redraw(moved), e) == Redraw(Redraw(moved).(x := x, y := y));
    RedrawForgetsOldPixels(moved, x, y);
    assert moved.(x := x, y := y) == g.(x := x, y := y);
  }

  /** A move followed by the opposite move gives back the state it started
      from, pixels included, when its buffer held its rendered picture (`Displayed`): Up then Down,
      Down then Up, Left then Right and Right then Left. */
  lemma {:induction false} OppositeMoveRestores(g: GameState, d: Direction)
    requires Displayed(g)
    ensures PlayerMove(PlayerMove(g, d), Opposite(d)) == g
  {
    TwoMoves(g, d, Opposite(d));
    assert g.(x := g.x, y := g.y) == g;
  }

  /** The order of two moves does not matter. */
  lemma MovesCommute(g: GameState, d: Direction, e: Direction)
    requires WellFormed(g)
    ensures PlayerMove(PlayerMove(g, d), e) == PlayerMove(PlayerMove(g, e), d)
  {
    TwoMoves(g, d, e);
    TwoMoves(g, e, d);
  }
}

=== FILE: room.dfy ===
/** Building a fresh room: a fixed 9 by 7 grid whose only free tiles are the
    spawn column above the spawn row, each linked one row down and one row
    up; then sizing the buffer and drawing it. */
module Rooms {
  import opened Game
  import opened Buffers
  import opened Drawing

  const RoomWidth := 9
  const RoomHeight := 7
  const SpawnX := RoomWidth / 2
  const SpawnY := 0
  const InitialSeed := 420023

  /** The tile at `(x, y)` after a reset, over the record `stale` that the
      tile memory held before: the spawn column above the spawn row becomes
      free and linked to the cells one row down and one row up; every other
      tile is only marked blocked, its link fields left as they were. */
  function ResetTile(stale: GameTile, x: int, y: int): (t: GameTile)
    ensures t.isFree <==> x == SpawnX && y != SpawnY
    ensures t.isFree ==> t.previousX == x == t.nextX && t.previousY + 1 == y == t.nextY - 1
    ensures !t.isFree ==> t.(isFree := stale.isFree) == stale
  {
    if x == SpawnX && y != SpawnY then GameTile(true, x, y - 1, x, y + 1) else stale.(isFree := false)
  }

  /** The whole tile array after a reset, cell by cell in row-major order. */
  function BaseTiles(stale: seq<GameTile>): (tiles: seq<GameTile>)
    requires |stale| == RoomWidth * RoomHeight
    ensures |tiles| == |stale|
    ensures forall i :: 0 <= i < |tiles| ==> (tiles[i].isFree <==> i % RoomWidth == SpawnX && i / RoomWidth != SpawnY)
    ensures forall i :: 0 <= i < |tiles| && !tiles[i].isFree ==> tiles[i] == stale[i].(isFree := false)
  {
    seq(|stale|, i requires 0 <= i < |stale| => ResetTile(stale[i], i % RoomWidth, i / RoomWidth))
  }

  /** The 9 by 7 room a reset builds over the old tile memory. */
  function ResetGrid(stale: seq<GameTile>): GameRoom
    requires |stale| == RoomWidth * RoomHeight
  {
    GameRoom(RoomWidth, RoomHeight, BaseTiles(stale))
  }

  /** The reset's nested loop: rows outer, columns inner, one tile pointer
      stepping through the array. It writes exactly `BaseTiles`. */
  method ResetTiles(stale: seq<GameTile>) returns (tiles: seq<GameTile>)
    requires |stale| == RoomWidth * RoomHeight
    ensures tiles == BaseTiles(stale)
  {
    tiles := stale;
    var tileRow := 0;
    var y := 0;
    while y < RoomHeight
      invariant 0 <= y <= RoomHeight
      invariant tileRow == y * RoomWidth
      invariant |tiles| == |stale|
      invariant forall i :: 0 <= i < tileRow ==> tiles[i] == ResetTile(stale[i], i % RoomWidth, i / RoomWidth)
      invariant forall i :: tileRow <= i < |tiles| ==> tiles[i] == stale[i]
    {
      var tile := tileRow;
      var x := 0;
      while x < RoomWidth
        invariant 0 <= x <= RoomWidth
        invariant tile == tileRow + x
        invariant |tiles| == |stale|
        invariant forall i :: 0 <= i < tile ==> tiles[i] == ResetTile(stale[i], i % RoomWidth, i / RoomWidth)
        invariant forall i :: tile <= i < |tiles| ==> tiles[i] == stale[i]
      {
        if x == SpawnX && y != SpawnY {
          tiles := tiles[tile := GameTile(true, x, y - 1, x, y + 1)];
        } else {
          tiles := tiles[tile := tiles[tile].(isFree := false)];
        }
        tile := tile + 1;
        x := x + 1;
      }
      tileRow := tileRow + RoomWidth;
      y := y + 1;
    }
  }

  /** The tile memory and pixel memory a reset writes into: one record per
      cell of the 9 by 7 room and the words of its padded buffer. */
  predicate HasRoomMemory(g: GameState)
  {
    |g.room.tiles| == RoomWidth * RoomHeight && |g.buffer.memory| == PixelWords(RoomWidth, RoomHeight)
  }

  /** Resets the room: the player at `(width / 2, 0)`, the 9 by 7 grid of
      `BaseTiles`, the buffer sized for it, and a full redraw. The run flag,
      the seed and the cleared-room counter are untouched. */
  function ResetRoom(g: GameState): (r: GameState)
    requires HasRoomMemory(g)
    ensures Sized(r) && Displayed(r) && HasRoomMemory(r)
    ensures r.room.width == 9 && r.room.height == 7
    ensures r.x == 4 && r.y == 0
    ensures r.running == g.running && r.seed == g.seed && r.roomsCleared == g.roomsCleared
    ensures r.room == ResetGrid(g.room.tiles)
    ensures forall i :: 0 <= i < |r.buffer.memory| && OffPicture(r.buffer, i) ==> r.buffer.memory[i] == g.buffer.memory[i]
    ensures forall x, y :: 0 <= x < r.room.width && 0 <= y < r.room.height ==>
              (r.room.tiles[GetTile(r.room, x, y)].isFree <==> x == r.x && y != r.y)
  {
    var room := ResetGrid(g.room.tiles);
    PaddedRow(RoomWidth, RoomHeight, g.buffer.memory);
    var placed := g.(x := SpawnX, y := SpawnY, room := room,
                     buffer := BufferFor(RoomWidth, RoomHeight, g.buffer.memory));
    Redraw(placed)
  }

  /** Program start: a zero-filled arena, the run flag set, the seed 420023,
      no room cleared, then the first reset. The start state is the reset
      9 by 7 room over all-zero tile records, with zero padding words. */
  function Startup(): (g: GameState)
    ensures Sized(g) && Displayed(g)
    ensures g.running && g.seed == 420023 && g.roomsCleared == 0
    ensures g.x == 4 && g.y == 0
    ensures forall i :: 0 <= i < |g.room.tiles| && !g.room.tiles[i].isFree ==>
              g.room.tiles[i] == ZeroTile
    ensures g.room == ResetGrid(seq(RoomWidth * RoomHeight, _ => ZeroTile))
    ensures forall i :: 0 <= i < |g.buffer.memory| && OffPicture(g.buffer, i) ==> g.buffer.memory[i] == 0
  {
    var arena := GameState(true, InitialSeed, 0, 0, 0,
                           GameRoom(0, 0, seq(RoomWidth * RoomHeight, _ => ZeroTile)),
                           OffscreenBuffer(0, 0, 0, 0, 0, 0, 0, seq(PixelWords(RoomWidth, RoomHeight), _ => 0)));
    ResetRoom(arena)
  }

  /** After a reset exactly the six tiles `(4, 1)` to `(4, 6)` (flat
      indices 13, 22, ..., 58) are free: one per row except the spawn row, so
      the player's own cell `(4, 0)` is blocked. */
  lemma FreeTilesAfterReset(stale: seq<GameTile>)
    requires |stale| == RoomWidth * RoomHeight
    ensures var room := ResetGrid(stale);
            && FreeTiles(room) == {13, 22, 31, 40, 49, 58}
            && |FreeTiles(room)| == RoomHeight - 1
            && GetTile(room, SpawnX, SpawnY) !in FreeTiles(room)
  {
    var room := ResetGrid(stale);
    forall i | i in FreeTiles(room)
      ensures i in {13, 22, 31, 40, 49, 58}
    {
      SpawnColumnIndex(i);
    }
    forall i | i in {13, 22, 31, 40, 49, 58}
      ensures i in FreeTiles(room)
    {
      SpawnColumnIndex(i);
    }
  }

  /** The flat indices of the spawn column above the spawn row. */
  lemma SpawnColumnIndex(i: int)
    requires 0 <= i < RoomWidth * RoomHeight
    ensures i % RoomWidth == SpawnX && i / RoomWidth != SpawnY <==> i in {13, 22, 31, 40, 49, 58}
  {
    var row := i / RoomWidth;
    assert i == RoomWidth * row + i % RoomWidth && 0 <= row < RoomHeight;
  }

  /** Each free tile after a reset links to the cell one row down as its
      previous and one row up as its next. */
  lemma LinksAfterReset(stale: seq<GameTile>, x: int, y: int)
    requires |stale| == RoomWidth * RoomHeight
    requires 0 <= x < RoomWidth && 0 <= y < RoomHeight
    requires ResetGrid(stale).tiles[GetTile(ResetGrid(stale), x, y)].isFree
    ensures var t := ResetGrid(stale).tiles[GetTile(ResetGrid(stale), x, y)];
            (t.previousX, t.previousY) == (x, y - 1) && (t.nextX, t.nextY) == (x, y + 1)
  {
  }

  /** Inside the column the links run both ways: for a free tile `t` in rows
      2 to 5, the tile at `t`'s previous is free and its next is `t`, and
      the tile at `t`'s next is free and its previous is `t`. */
  lemma LinksAreMutual(stale: seq<GameTile>, y: int)
    requires |stale| == RoomWidth * RoomHeight
    requires 2 <= y <= 5
    ensures var room := ResetGrid(stale);
            var t := room.tiles[GetTile(room, SpawnX, y)];
            var p := room.tiles[GetTile(room, t.previousX, t.previousY)];
            var n := room.tiles[GetTile(room, t.nextX, t.nextY)];
            && t.isFree && p.isFree && n.isFree
            && (p.nextX, p.nextY) == (SpawnX, y)
            && (n.previousX, n.previousY) == (SpawnX, y)
  {
  }

  /** There is no end-of-path sentinel: the bottom free tile's previous is
      the blocked spawn cell `(4, 0)` and the top free tile's next is
      `(4, 7)`, one row outside the grid. */
  lemma PathEnds(stale: seq<GameTile>)
    requires |stale| == RoomWidth * RoomHeight
    ensures var room := ResetGrid(stale);
            var bottom := room.tiles[GetTile(room, SpawnX, 1)];
            var top := room.tiles[GetTile(room, SpawnX, RoomHeight - 1)];
            && bottom.isFree && (bottom.previousX, bottom.previousY) == (SpawnX, SpawnY)
            && !room.tiles[GetTile(room, SpawnX, SpawnY)].isFree
            && top.isFree && (top.nextX, top.nextY) == (SpawnX, RoomHeight)
  {
  }

  /** A reset never writes the link fields of a blocked tile: they keep what
      the tile memory held before. */
  lemma BlockedLinksKept(stale: seq<GameTile>, i: int)
    requires |stale| == RoomWidth * RoomHeight && 0 <= i < |stale|
    requires !ResetGrid(stale).tiles[i].isFree
    ensures ResetGrid(stale).tiles[i] == stale[i].(isFree := false)
  {
  }

  /** Where the player stood before has no effect on the reset. */
  lemma ResetIgnoresPosition(g: GameState, x: int, y: int)
    requires HasRoomMemory(g)
    ensures ResetRoom(g.(x := x, y := y)) == ResetRoom(g)
  {
  }
}
